=== FILE: README.md ===
# Remote screen-capture relay: a Dafny model

This project models the core of a small remote screenshot system. A phone viewer asks a relay
service for a screenshot. A desktop capture agent polls the relay, claims the pending requests,
grabs its screen (or a region of it) and uploads the image. The viewer then polls the relay for
the result.

The model has three parts.

- **The relay's request-lifecycle store** (`app/server.py`). There are two in-memory
  dictionaries, `screenshot_requests` and `screenshots`. Three handlers change them: create,
  claim (`check_requests`) and upload. One pass of the expiry reaper also changes them. The
  query handler only reads them. Each changing handler is a pure function from the store before
  to the store after and the reply, and the query is a function of the store alone
  (`relay_store.dfy`). Python dictionaries keep insertion order, and `check_requests` returns
  pending entries in that order, so the store keeps the insertion order of its ids next to the
  two maps. The module proves a store invariant (`Valid`) that every operation preserves, a
  lifecycle that never moves backwards, and the cross-operation properties
  (`relay_properties.dfy`): the claim is single-use, the last upload wins, a query reports the
  exact status, the reaper is idempotent, and any sequence of operations keeps the invariant.
- **The capture agent's polling loop** (`ScreenshotClient.run`). The console client and the
  desktop client share this loop. It has a consecutive-error counter, a five-error cut-off and a
  doubled back-off sleep (`agent_loop.dfy`). The model also covers how the agent reads the
  `check-requests` reply (`agent_poll.dfy`), and what the start-up connection test does to the
  relay (`agent_start.dfy`).
- **Capture-region geometry** (`region.dfy`). This covers the grab bounding box, mouse-drag
  normalisation with the minimum-size filter, validation of typed-in coordinates, and the preset
  tables. The console's presets are fixed for 1920x1080. The desktop's presets are computed from
  the screen size by floor division.

Time is an `int` parameter (`now`). The fresh `uuid4` request id is a parameter with the
precondition that it is not already a key. The image is an opaque string.

The model follows the code as written. Three behaviours are worth noting:

- A transport error while polling does **not** count as a loop error. `check_requests` catches
  `RequestException` and `JSONDecodeError` and returns `[]`. The pass then ends normally: the
  counter is reset and the agent sleeps the normal interval. Only an exception that escapes
  `check_requests` reaches the loop's `except Exception` branch, with the back-off and the
  five-error cut-off. For example, a JSON body that is not an object makes `data.get` raise
  (`AgentPoll.TransportFailureResetsCounter`, `AgentPoll.PassEvent`).
- A query for a Completed request with no stored image answers "pending", not "processing"
  (`app/server.py:748-756`). Under the store invariant this case cannot arise
  (`RelayProperties.QueryReflectsStatus`).
- Upload accepts a request in any status, including Pending. This is the one transition that
  skips Processing.

## Model

| member | source | states |
|---|---|---|
| `RelayStore.Create` | app/server.py:694-703 | With a fresh id, exactly that key is added. It holds status Pending, the given user id and the current time, and the reply is the id. Every other entry and the image map are unchanged. The store invariant is preserved and no entry regresses. |
| `RelayStore.PendingIn` | app/server.py:708-712 | The comprehension's result holds exactly the pending entries of the map, each listed once. Each is a copy showing "pending" with the entry's user id and timestamp. No id is repeated when the order has no duplicates. |
| `RelayStore.Claim` | app/server.py:705-721 | The claim returns every Pending request, each once, each copy still showing "pending". `has_requests` is true iff the list is non-empty. Afterwards each claimed entry is Processing with its other fields unchanged, and no entry is Pending. Non-pending entries, the image map and the order are untouched, and the invariant is preserved. |
| `RelayStore.Upload` | app/server.py:723-738 | An unknown id gives 404 and leaves the whole store unchanged. A known id, in any prior status, gets the payload and upload time stored and becomes Completed. No other entry of either map changes, and the invariant is preserved. |
| `RelayStore.Query` | app/server.py:740-756 | An unknown id gives 404. Completed with a stored image gives exactly that image. Processing gives "processing". Everything else gives "pending", including Completed with no image. |
| `RelayStore.Survivors` | app/server.py:768-770 | Popping the expired ids leaves exactly the other ids, still without duplicates. |
| `RelayProperties.SurvivorsAppend` | app/server.py:768-770 | The reaper keeps the insertion order: the survivors of the ids `a` followed by `b` are the survivors of `a` followed by those of `b`. |
| `RelayStore.Reap` | app/server.py:759-770 | A request survives iff `now - timestamp <= 3600`. Every expired id, whatever its status, is gone from both maps. Survivors and their images are untouched, and the invariant is preserved. |
| `RelayProperties.PendingInAppend` | app/server.py:708-712 | The claim list follows insertion order: the list for the ids `a` followed by `b` is the list for `a` followed by the list for `b`. |
| `RelayProperties.SecondClaimIsEmpty` | app/server.py:714-721 | A second claim straight after the first returns `has_requests = false` and an empty list. |
| `RelayProperties.ClaimIsSingleUse` | app/server.py:714-721 | Once claimed, an id is never returned by a later claim, whatever sequence of uploads, queries, reaper passes, other claims and creates of other ids comes in between. |
| `RelayProperties.ClaimAfterCreateReturnsOnlyNew` | app/server.py:697-719 | After a claim and one create, the next claim returns exactly the new request: its id, requester, creation time and "pending". |
| `RelayProperties.UploadThenQuery` | app/server.py:729-751 | An upload to a known id succeeds, and the next query returns that exact payload as "completed". |
| `RelayProperties.UnknownIdNotFound` | app/server.py:723-744 | For an unknown id, upload gives 404 with the store unchanged, and query gives 404. |
| `RelayProperties.LastUploadWins` | app/server.py:730-736 | After two uploads to one id, the status is Completed and the query serves the second payload. |
| `RelayProperties.CreateThenQuery` | app/server.py:697-756 | A query right after a create answers "pending". |
| `RelayProperties.QueryReflectsStatus` | app/server.py:746-756 | In a valid store the answer matches the status in both directions. Pending iff "pending", Processing iff "processing", Completed iff "completed" with the stored image. |
| `RelayProperties.ReapForgetsExpired` | app/server.py:762-770 | After a reaper pass, an expired request is unknown to the query (404) and its image is gone. |
| `RelayProperties.ReapIsIdempotent` | app/server.py:762-770 | A second reaper pass at the same instant changes nothing. |
| `RelayProperties.HappyPath` | app/server.py:694-756 | Create, then claim: the claim lists the request as "pending" and the query says "processing". Then upload: the query returns the same payload, and the store is still valid. |
| `RelayProperties.ApplyPreservesValid` | app/server.py:694-770 | Each of create (with a fresh id), claim, upload, query and a reaper pass keeps the store invariant. No surviving request moves backwards in Pending, Processing, Completed or changes its requester or timestamp. |
| `RelayProperties.ReplayPreservesValid` | app/server.py:694-770 | Any sequence of those operations from a valid store ends in a valid store. |
| `RelayProperties.EmptyIsValid` | app/server.py:24-25 | The two empty dictionaries the relay starts with satisfy the invariant: every image belongs to a Completed request and every Completed request has its image. |
| `AgentLoop.Next` | screenshot_client.py:211-245 | A good pass resets the counter to 0 and sleeps `poll_interval`. A failed pass adds one to the counter and leaves the loop exactly when it reaches 5, otherwise it sleeps `2 * poll_interval`. An interrupt or `stop()` leaves the loop with the counter unchanged. The console catches the interrupt and the desktop lets it propagate. `running` is false whenever the loop is left. |
| `AgentLoop.RunLoop` | screenshot_client_gui.py:219-260 | If the connection test fails, nothing runs. Otherwise the counter is always the number of trailing failures and never exceeds 5. Each continuing pass sleeps the interval, doubled after a failure. The loop leaves on the pass that makes five consecutive failures, or on the first interrupt or stop, never on a good pass. `NotConnected` is the exit exactly when the connection test fails, and `running` is false exactly when `run` has returned. |
| `AgentPoll.SelectRequests` | screenshot_client.py:89-106 | The server's list is returned only when `has_requests` is true, with a missing list taken as empty. A false or missing flag, a transport error or an undecodable body each give `[]`. Only a JSON value that is not an object raises. |
| `AgentPoll.PassEvent` | screenshot_client.py:213-233 | A pass fails exactly when the poll's reply is JSON that is not an object. Every other reply, including a transport error or an undecodable body, ends the pass normally, since capture and upload errors are caught inside `process_screenshot_request`. |
| `AgentPoll.PollingRun` | screenshot_client.py:211-245 | Fed the replies of successive polls, the loop can only stop for lack of a connection or after five consecutive replies that are not JSON objects. With no such reply, a connected agent consumes every reply, the counter stays 0 and every sleep is the plain interval. |
| `AgentPoll.AgentServesExactlyTheClaim` | screenshot_client_gui.py:107-117 | The agent selects exactly the list that the relay's claim returned. |
| `AgentStart.TestConnection` | screenshot_client.py:174-188 | The connection test leaves every request on the relay, turns each pending one Processing with its other fields kept, and leaves none pending. Entries that were not pending, the image map and the insertion order are unchanged, as in the claim handler. |
| `AgentStart.TestConnectionSwallowsPending` | screenshot_client.py:181-185 | A request pending when the agent starts is not in the agent's first poll, and its viewer is told "processing". |
| `AgentStart.TestConnectionSwallowsOnePending` | screenshot_client.py:181-185 | On a relay holding one pending request, the first poll after the test returns `has_requests = false` and an empty list, although that poll without the test would have returned the request. |
| `AgentStart.ReadOnlyTestConnection` | app/server.py:40-41 | A connection test against the relay's read-only page leaves both maps and the order unchanged. |
| `AgentStart.ReadOnlyTestLeavesPendingForAgent` | app/server.py:705-719 | With a read-only test, every request pending at start-up is in the agent's first poll, with its requester and creation time. |
| `AgentPoll.TransportFailureResetsCounter` | screenshot_client.py:101-103 | A transport failure while polling is swallowed. The pass counts as good: the counter goes to 0 and the agent sleeps the normal interval. |
| `Region.CaptureTarget` | screenshot_client_gui.py:72-83 | No region means a full-screen grab. A region becomes the box starting at its corner, whose width and height equal the region's. |
| `Region.Normalize` | screenshot_client.py:332-335 | The drag region starts at the smaller coordinate and ends at the larger one on each axis, with non-negative size. |
| `Region.NormalizeIsSpanned` | screenshot_client_gui.py:349-352 | The normalised region is the rectangle whose edges are the press and release coordinates, and it is the only such rectangle. |
| `Region.OnRelease` | screenshot_client.py:325-343 | A drag is accepted iff it is more than 10 px wide and more than 10 px high. An accepted drag becomes the region and ends the selection. A rejected one keeps the earlier region. |
| `Region.DragDirectionIrrelevant` | screenshot_client_gui.py:342-360 | Swapping the press and release points, on both axes or on one, gives the same result. |
| `Region.AcceptedDragHasLargeBox` | screenshot_client.py:337-339 | An accepted drag yields a grab box more than 10 px wide and high. |
| `Region.ManualRegion` | screenshot_client.py:384-397 | Typed input gives a region iff every field parses and width > 0 and height > 0. The region then holds exactly the typed values. Otherwise the result is `None`. |
| `Region.ConfirmManual` | screenshot_client_gui.py:595-611 | Confirm sets the region and closes the dialog iff width > 0 and height > 0. Otherwise the earlier region is kept. |
| `Region.ManualRegionHasProperBox` | screenshot_client.py:56-60 | A typed-in region's bbox has right > left and bottom > top. |
| `Region.ConsolePreset` | screenshot_client.py:433-457 | Keys "1" to "5" select a preset, and each lies on a 1920x1080 screen with positive size. Any other key gives `None` (full screen). |
| `Region.GuiPreset` | screenshot_client_gui.py:636-650 | For any non-negative screen size, every preset lies on the screen: non-negative corner and size, `x + w <= width` and `y + h <= height`. |
| `Region.GuiPresets` | screenshot_client_gui.py:639-650 | The dialog offers ten distinct presets, each lying on the screen. |
| `Region.GuiHalvesAdjacent` | screenshot_client_gui.py:640-649 | Left and right halves meet edge to edge (`left.x + left.w = right.x`). So do top and bottom, and so do the quarters. |
| `Region.GuiHalvesCoverIffEven` | screenshot_client_gui.py:640-643 | The right half ends at the screen edge iff the width is even. The bottom half ends at the edge iff the height is even. |
| `Region.GuiPresetsNonEmptyIff` | screenshot_client_gui.py:639-650 | Every desktop preset has a positive width and height iff the screen is at least 2x2. |
| `Region.ConsolePresetsMatchGui` | screenshot_client.py:442-448 | The console's five fixed presets equal the desktop's left, right, top, bottom and centre presets computed for 1920x1080. |

## Left out

- FastAPI routing, the pydantic request models, HTTP plumbing beyond a 404 result, and `uvicorn`
  start-up. These are framework glue.
- The HTML pages, CSS, QR-code generation and the viewer's in-page JavaScript poller with its
  30-second timeout. These are presentation, driven by browser timers.
- `uuid4` and `time.time()`. The id is a fresh parameter and time is an integer parameter, so
  fractional seconds are not modelled.
- The reaper's five-minute `asyncio` schedule and any interleaving of concurrent handlers. One
  reaper pass is a function. Handlers run one at a time, as on a single-threaded event loop, so
  the "concurrent claimers partition the pending set" property is covered only in its
  sequential form (`RelayProperties.ClaimIsSingleUse`,
  `RelayProperties.ClaimAfterCreateReturnsOnlyNew`).
- `RelayStore.Claim` marks every Pending entry of the map rather than walking the copied list.
  The two agree on every store satisfying the invariant, which all reachable stores do.
- Screen grabbing with PIL, PNG encoding and base64. The image is an opaque string.
- The agent's network calls (`requests.Session`), `test_connection` (an input flag to
  `AgentLoop.RunLoop`), `upload_screenshot` and `process_screenshot_request` (their effect on the
  loop is the `Success` event), `time.sleep` (a returned duration) and logging.
- `AgentLoop.Next`: the poll interval is a non-negative whole number. Fractional intervals are
  not modelled. Neither is a negative one, for which `time.sleep` raises `ValueError` on the
  first good pass; that error escapes the `except` handler's sleep too and ends `run`.
- `AgentLoop.Next`: models an interrupt as the event that ends a pass. An interrupt that lands
  during the back-off sleep of the console client is not modelled; it happens inside the
  `except Exception` handler and propagates instead of being caught. Either way `running` ends
  false.
- `AgentPoll.PassEvent`: list items are always request objects. In
  `process_screenshot_request` the `request.get` calls and the log line sit before the `try`
  (screenshot_client.py:151-154, screenshot_client_gui.py:169-172), so a list item that is not
  a JSON object would fail the pass. The model does not cover that case.
- `AgentLoop.RunLoop`: the desktop client's `InterruptRaised` exit is kept as the code reads.
  The desktop client runs the loop on a daemon thread, and Python delivers `KeyboardInterrupt`
  only to the main thread, so that exit does not happen in practice.
- `AgentLoop.RunLoop`: the connection test is the flag `connected`. Its effect on the relay is
  not part of the loop model: the test sends `GET /api/check-requests`, which is a claim whose
  reply is discarded (see "## Findings" and `AgentStart`).
- `AgentPoll.AgentServesExactlyTheClaim`: proves only which list is selected. The serving loop
  stops at `if not self.running: break` (screenshot_client.py:218-221,
  screenshot_client_gui.py:236-239), so a `stop()` in the middle of the list leaves the rest of
  the claimed requests unserved. They stay Processing until the reaper removes them. That early
  exit is not modelled.
- `AgentPoll.SelectRequests`: models `has_requests` as a boolean or absent. Python truthiness
  of other JSON values, and a non-list `requests` value, are not modelled.
- `Region.ManualRegion`: `int()` parsing of the entry text is not modelled. Its outcome is the
  `Fields` or `Unparsable` input.
- All tkinter and customtkinter widget wiring, threads, the log queue and the 500-line log trim,
  `get_screen_info`, and the screen-size query. The screen size is a parameter. The
  `on_button_press` and `on_mouse_drag` handlers are left out; only their recorded start point
  reaches the model, as an input to `Region.OnRelease`. The Escape handler is also left out.
- The interactive `input()` and `print` flows of `main` and `get_capture_region` (modes "1",
  "2" and "3", `.strip()`). Only the preset lookup of mode "4" is modelled.

## Findings

| source | as written | input that shows it | evidently intended | confidence | as-written member | corrected member |
|---|---|---|---|---|---|---|
| screenshot_client.py:181-185 | `test_connection` probes the relay with `GET /api/check-requests` and discards the reply. On the relay that request claims every pending request. The desktop client's copy at screenshot_client_gui.py:199-203 and its "test connection" button do the same. | A relay holding one pending request when the agent starts (`AgentStart.OnePending`). The test marks it Processing, the agent's first poll returns nothing, and the viewer sees "processing" until its 30-second timeout (app/server.py:579-586). The request stays Processing until the reaper removes it an hour later. | A connection test that leaves the relay's state alone, so that the first poll returns every pending request. | medium, not executed | `AgentStart.TestConnectionSwallowsOnePending` | `AgentStart.ReadOnlyTestLeavesPendingForAgent` |

=== FILE: agent_loop.dfy ===
/**
 The capture agent's polling loop, `ScreenshotClient.run`, which the console client
 (screenshot_client.py) and the desktop client (screenshot_client_gui.py) share except for one
 exception handler.

 One pass of the loop polls the relay, captures and uploads whatever was claimed, and sleeps.
 The model abstracts a pass into the event that ended it: it returned normally (`Success`),
 raised an `Exception` (`Failure`), raised `KeyboardInterrupt` (`Interrupt`), or `stop()` was
 called from outside so that the loop guard reads `running == False` (`Stop`). Sleeping is not
 performed; each continuing pass reports the duration it would sleep.

 The two files differ only in the `KeyboardInterrupt` handler: the console client catches it and
 leaves the loop, the desktop client has no handler and the interrupt would propagate out of
 `run` after the `finally` block has cleared `running`. The desktop client runs the loop on a
 daemon thread, and Python delivers `KeyboardInterrupt` only to the main thread, so the
 `InterruptRaised` exit cannot happen in practice; it is kept to record what the code does.

 The poll interval is a non-negative whole number of time units; the clients' fractional
 seconds are not modelled.
 */
module AgentLoop {
  import opened Basics

  /** `max_consecutive_errors`. */
  const MaxConsecutiveErrors: nat := 5

  datatype Event = Success | Failure | Interrupt | Stop

  datatype Variant = Console | Gui

  /** Why `run` returned (or, for `InterruptRaised`, propagated an interrupt). */
  datatype Exit = NotConnected | Stopped | Interrupted | InterruptRaised | TooManyErrors

  /** `self.running` and the local `consecutive_errors`. */
  datatype Agent = Agent(running: bool, errors: nat)

  /** One pass either continues after sleeping `sleep`, or leaves the loop. */
  datatype Step = Continue(agent: Agent, sleep: nat) | Halt(agent: Agent, exit: Exit)

  /** The state in which the loop body runs: the guard holds and the error budget is not spent. */
  predicate Live(a: Agent) {
    a.running && a.errors < MaxConsecutiveErrors
  }

  /** One pass of the loop body, ended by `e`, with poll interval `poll`. */
  function Next(variant: Variant, a: Agent, e: Event, poll: nat): (r: Step)
    requires Live(a)
    ensures r.Continue? ==> Live(r.agent)
    ensures r.Halt? ==> !r.agent.running && r.agent.errors <= MaxConsecutiveErrors
    ensures e == Success ==> r == Continue(Agent(true, 0), poll)
    ensures e == Failure ==> r.agent.errors == a.errors + 1
    ensures e == Failure ==> (r.Halt? <==> a.errors + 1 == MaxConsecutiveErrors)
    ensures e == Failure && r.Continue? ==> r.sleep == 2 * poll
    ensures r.Halt? && r.exit == TooManyErrors <==> e == Failure && a.errors + 1 == MaxConsecutiveErrors
    ensures e == Interrupt || e == Stop ==> r.Halt? && r.agent.errors == a.errors
    ensures e == Interrupt ==> r.exit == (if variant == Console then Interrupted else InterruptRaised)
    ensures e == Stop ==> r.exit == Stopped
  {
    match e
    case Success => Continue(Agent(true, 0), poll)
    case Failure =>
      var errors := a.errors + 1;
      if errors >= MaxConsecutiveErrors then Halt(Agent(false, errors), TooManyErrors)
      else Continue(Agent(true, errors), poll * 2)
    case Interrupt =>
      Halt(Agent(false, a.errors), if variant == Console then Interrupted else InterruptRaised)
    case Stop => Halt(Agent(false, a.errors), Stopped)
  }

  // ---------------------------------------------------------------------------------------
  // Reference definitions the loop is proved against

  /** A pass that does not leave the loop by itself. */
  predicate Routine(e: Event) {
    e == Success || e == Failure
  }

  /** The length of the run of failures that ends `events`. */
  function TrailingFailures(events: seq<Event>): nat {
    if events == [] || events[|events| - 1] != Failure then 0
    else 1 + TrailingFailures(events[..|events| - 1])
  }

  /** The failures counted by `TrailingFailures` are the last elements of `events`. */
  lemma {:induction false} TrailingFailuresAreFailures(events: seq<Event>)
    ensures TrailingFailures(events) <= |events|
    ensures forall k | |events| - TrailingFailures(events) <= k < |events| :: events[k] == Failure
  {
    if events != [] && events[|events| - 1] == Failure {
      var front := events[..|events| - 1];
      TrailingFailuresAreFailures(front);
      assert forall k | |front| - TrailingFailures(front) <= k < |front| :: events[k] == front[k];
    }
  }

  /** A history without a failure ends in no run of failures. */
  lemma TrailingFailuresWithoutFailure(events: seq<Event>)
    requires forall k | 0 <= k < |events| :: events[k] != Failure
    ensures TrailingFailures(events) == 0
  {
  }

  /** The back-off policy: the normal interval after a good pass, twice it after a failed one. */
  function Backoff(e: Event, poll: nat): nat {
    if e == Failure then 2 * poll else poll
  }

  /** What `run` leaves behind: its final state, how many events it used, the sleeps it took. */
  datatype Run = Run(agent: Agent, consumed: nat, sleeps: seq<nat>, exit: Option<Exit>)

  /**
   `run(poll_interval)` driven by the outcomes of its passes. `connected` is the result of the
   initial `test_connection`. When `events` runs out before the loop has left, the result
   describes the loop still running.
   */
  method RunLoop(variant: Variant, connected: bool, events: seq<Event>, poll: nat) returns (r: Run)
    ensures r.consumed <= |events|
    ensures r.agent.errors <= MaxConsecutiveErrors
    ensures r.exit.Some? <==> !r.agent.running
    ensures !connected ==> r == Run(Agent(false, 0), 0, [], Some(NotConnected))
    ensures r.exit == Some(NotConnected) <==> !connected
    ensures connected && r.exit.Some? ==> r.consumed >= 1 && events[r.consumed - 1] != Success
    ensures connected && r.exit.Some? ==>
              (r.exit == Some(TooManyErrors) <==> events[r.consumed - 1] == Failure)
    ensures connected ==> |r.sleeps| == (if r.exit.Some? then r.consumed - 1 else r.consumed)
    ensures connected ==> forall k | 0 <= k < |r.sleeps| ::
              Routine(events[k]) && r.sleeps[k] == Backoff(events[k], poll)
    ensures connected ==> forall k | 0 <= k <= |r.sleeps| :: TrailingFailures(events[..k]) < MaxConsecutiveErrors
    ensures connected && r.exit.None? ==>
              r.consumed == |events| && r.agent.errors == TrailingFailures(events)
    ensures r.exit == Some(TooManyErrors) ==>
              && r.agent.errors == MaxConsecutiveErrors
              && TrailingFailures(events[..r.consumed]) == MaxConsecutiveErrors
    ensures r.exit == Some(Stopped) ==>
              events[r.consumed - 1] == Stop && r.agent.errors == TrailingFailures(events[..r.consumed - 1])
    ensures r.exit == Some(Interrupted) || r.exit == Some(InterruptRaised) ==>
              && events[r.consumed - 1] == Interrupt
              && r.agent.errors == TrailingFailures(events[..r.consumed - 1])
              && (r.exit == Some(Interrupted) <==> variant == Console)
  {
    if !connected {
      return Run(Agent(false, 0), 0, [], Some(NotConnected));
    }
    var a := Agent(true, 0);
    var sleeps: seq<nat> := [];
    var i := 0;
    while i < |events|
      invariant 0 <= i <= |events|
      invariant Live(a)
      invariant a.errors == TrailingFailures(events[..i])
      invariant |sleeps| == i
      invariant forall k | 0 <= k < i :: Routine(events[k]) && sleeps[k] == Backoff(events[k], poll)
      invariant forall k | 0 <= k <= i :: TrailingFailures(events[..k]) < MaxConsecutiveErrors
    {
      assert events[..i + 1][..i] == events[..i];
      match Next(variant, a, events[i], poll)
      case Continue(b, d) =>
        a, sleeps, i := b, sleeps + [d], i + 1;
      case Halt(b, x) =>
        return Run(b, i + 1, sleeps, Some(x));
    }
    assert events[..i] == events;
    return Run(a, i, sleeps, None);
  }
}

=== FILE: agent_poll.dfy ===
/**
 The agent's side of `check-requests` (`ScreenshotClient.check_requests`, the same in both
 client files): which replies yield a list of requests to serve, which yield nothing, and which
 escape as an exception into the polling loop.
 */
module AgentPoll {
  import opened Basics
  import RelayStore
  import AgentLoop

  /** What the `GET /api/check-requests` call can produce, as seen by the agent. */
  datatype Reply =
      /** `requests.RequestException`: no connection, a timeout, or an HTTP error status. */
    | TransportFailure
      /** `json.JSONDecodeError`: the body is not JSON. */
    | UndecodableBody
      /** JSON that is not an object (a list, a number, `null`): `data.get` raises. */
    | NotAnObject
      /** A JSON object; an absent key is `None`. */
    | Object(hasRequests: Option<bool>, requests: Option<seq<RelayStore.Claimed>>)

  /** The list handed to the processing loop, or an exception that leaves `check_requests`. */
  datatype Selection = Selected(items: seq<RelayStore.Claimed>) | Raised

  /**
   `check_requests`: the server's list when `has_requests` is true (an absent list counting as
   empty), and an empty list for a false or absent flag, a transport error or a body that is
   not JSON. Only a JSON value that is not an object makes it raise.
   */
  function SelectRequests(reply: Reply): (r: Selection)
    ensures r == Raised <==> reply == NotAnObject
    ensures r.Selected? && r.items != [] ==>
              reply.Object? && reply.hasRequests == Some(true) && reply.requests == Some(r.items)
    ensures reply.Object? && reply.hasRequests == Some(true) ==>
              r == Selected(if reply.requests.Some? then reply.requests.value else [])
    ensures reply.Object? && reply.hasRequests != Some(true) ==> r == Selected([])
    ensures reply == TransportFailure || reply == UndecodableBody ==> r == Selected([])
  {
    match reply
    case TransportFailure => Selected([])
    case UndecodableBody => Selected([])
    case NotAnObject => Raised
    case Object(flag, items) =>
      if flag.GetOr(false) then Selected(items.GetOr([])) else Selected([])
  }

  /**
   How a pass of the polling loop ends, given what `check_requests` received. The capture and
   upload of each claimed request run inside `process_screenshot_request`, which catches every
   `Exception`, so only an exception out of `check_requests` fails the pass.
   */
  function PassEvent(reply: Reply): (e: AgentLoop.Event)
    ensures e == AgentLoop.Failure <==> reply == NotAnObject
    ensures e == AgentLoop.Success <==> reply != NotAnObject
  {
    if SelectRequests(reply).Raised? then AgentLoop.Failure else AgentLoop.Success
  }

  /** The JSON object the relay's `check_requests` handler sends. */
  function Encode(c: RelayStore.CheckReply): Reply {
    Object(Some(c.hasRequests), Some(c.requests))
  }

  /** Whatever the relay claims in one call is exactly the list the agent goes on to serve. */
  lemma AgentServesExactlyTheClaim(s: RelayStore.Store)
    ensures SelectRequests(Encode(RelayStore.Claim(s).reply)) == Selected(RelayStore.Claim(s).reply.requests)
  {
  }

  /**
   A failed poll is swallowed by `check_requests`, so the pass counts as a good one: the error
   counter is reset and the agent sleeps the normal interval, not twice it.
   */
  lemma TransportFailureResetsCounter(variant: AgentLoop.Variant, a: AgentLoop.Agent, poll: nat)
    requires AgentLoop.Live(a)
    ensures AgentLoop.Next(variant, a, PassEvent(TransportFailure), poll)
            == AgentLoop.Continue(AgentLoop.Agent(true, 0), poll)
  {
  }

  /**
   `run` fed the replies of successive polls. Since capture and upload cannot fail a pass, a
   poll loop left alone never stops by itself: only a run of `MaxConsecutiveErrors` replies
   that are not JSON objects ends it, and while no such reply arrives the error counter stays
   at zero and every sleep is the plain interval.
   */
  method PollingRun(variant: AgentLoop.Variant, connected: bool, replies: seq<Reply>, poll: nat)
    returns (r: AgentLoop.Run)
    ensures r.consumed <= |replies|
    ensures r.exit == Some(AgentLoop.NotConnected) <==> !connected
    ensures r.exit.Some? ==> r.exit == Some(AgentLoop.NotConnected) || r.exit == Some(AgentLoop.TooManyErrors)
    ensures r.exit == Some(AgentLoop.TooManyErrors) ==>
              && r.consumed >= AgentLoop.MaxConsecutiveErrors
              && forall k | r.consumed - AgentLoop.MaxConsecutiveErrors <= k < r.consumed :: replies[k] == NotAnObject
    ensures (forall k | 0 <= k < |replies| :: replies[k] != NotAnObject) ==>
              && r.exit != Some(AgentLoop.TooManyErrors)
              && r.agent.errors == 0
              && (connected ==> r.exit.None? && r.consumed == |replies|)
              && forall k | 0 <= k < |r.sleeps| :: r.sleeps[k] == poll
  {
    var events := seq(|replies|, k requires 0 <= k < |replies| => PassEvent(replies[k]));
    r := AgentLoop.RunLoop(variant, connected, events, poll);
    if r.exit == Some(AgentLoop.TooManyErrors) {
      var prefix := events[..r.consumed];
      AgentLoop.TrailingFailuresAreFailures(prefix);
      forall k | r.consumed - AgentLoop.MaxConsecutiveErrors <= k < r.consumed
        ensures replies[k] == NotAnObject
      {
        assert prefix[k] == events[k] == PassEvent(replies[k]) == AgentLoop.Failure;
      }
    }
    if forall k | 0 <= k < |replies| :: replies[k] != NotAnObject {
      assert forall k | 0 <= k < |events| :: events[k] == AgentLoop.Success;
      if connected && r.exit.None? {
        AgentLoop.TrailingFailuresWithoutFailure(events);
      }
    }
  }
}

=== FILE: agent_start.dfy ===
/**
 What the capture agent's start-up does to the relay. Before polling, `run` calls
 `test_connection`, which sends `GET /api/check-requests` and looks only at the HTTP status.
 On the relay that request is the claim handler, so the test claims every pending request and
 drops the reply: those requests turn Processing and no agent ever serves them. The desktop
 client's "test connection" button sends the same request.

 `TestConnection` is the test as written. `ReadOnlyTestConnection` is a test against a page
 that changes nothing (the relay's `GET /`), which is what a connection test evidently intends.
 */
module AgentStart {
  import opened RelayStore

  /** The relay after `test_connection` as written: a claim whose reply nobody reads. */
  function TestConnection(s: Store): (t: Store)
    ensures t.requests.Keys == s.requests.Keys
    ensures forall id | id in s.requests && s.requests[id].status == Pending ::
              t.requests[id] == s.requests[id].(status := Processing)
    ensures forall id | id in t.requests :: t.requests[id].status != Pending
    ensures forall id | id in s.requests && s.requests[id].status != Pending ::
              t.requests[id] == s.requests[id]
    ensures t.order == s.order && t.shots == s.shots
  {
    Claim(s).store
  }

  /**
   A request pending when the agent starts is swallowed by the connection test: the agent's first
   poll does not return it, and its viewer is told "processing" although nobody is capturing.
   */
  lemma TestConnectionSwallowsPending(s: Store, id: Id)
    requires Valid(s)
    requires id in s.requests && s.requests[id].status == Pending
    ensures var t := TestConnection(s);
            && Query(t, id) == Ok(ReportProcessing)
            && forall c | c in Claim(t).reply.requests :: c.requestId != id
  {
  }

  /** A single pending request on the relay when the agent starts. */
  const OnePending := Store(["r"], map["r" := Req("viewer", 0, Pending)], map[])

  /** The smallest instance: the first poll after the test returns nothing at all. */
  lemma TestConnectionSwallowsOnePending()
    ensures Valid(OnePending)
    ensures Claim(OnePending).reply.requests != []
    ensures Claim(TestConnection(OnePending)).reply == CheckReply(false, [])
  {
  }

  /** The connection test against a page that leaves the relay's state alone. */
  function ReadOnlyTestConnection(s: Store): (t: Store)
    ensures t.requests == s.requests && t.shots == s.shots && t.order == s.order
  {
    s
  }

  /**
   With a read-only test, every request pending when the agent starts is in the agent's first
   poll, with its requester and creation time.
   */
  lemma ReadOnlyTestLeavesPendingForAgent(s: Store, id: Id)
    requires Valid(s)
    requires id in s.requests && s.requests[id].status == Pending
    ensures Claimed(id, s.requests[id].userId, s.requests[id].timestamp, Pending)
              in Claim(ReadOnlyTestConnection(s)).reply.requests
  {
  }
}

=== FILE: basics.dfy ===
/** Small shared vocabulary: an optional value, as Python's `None` or a value. */
module Basics {

  /** `None` stands for Python's `None`; `Some(v)` for a present value. */
  datatype Option<+T> = None | Some(value: T) {

    /** The value, or `default` when absent. */
    function GetOr(default: T): T {
      match this
      case Some(v) => v
      case None => default
    }
  }
}

=== FILE: region.dfy ===
/**
 Capture-region geometry of both agent clients: the bounding box handed to the screen grabber,
 normalising a mouse drag, validating typed-in coordinates, and the preset tables (fixed for a
 1920x1080 screen in the console client, computed from the screen size in the desktop client).
 */
module Region {
  import opened Basics

  /** A capture region `(x, y, width, height)` in pixels. */
  datatype Region = Region(x: int, y: int, width: int, height: int)

  /** The argument of `ImageGrab.grab`: the whole screen, or a `(left, top, right, bottom)` box. */
  datatype Target = FullScreen | Box(left: int, top: int, right: int, bottom: int)

  /** The region lies on a `screenWidth` by `screenHeight` screen. */
  predicate Within(r: Region, screenWidth: int, screenHeight: int) {
    && 0 <= r.x && 0 <= r.y && 0 <= r.width && 0 <= r.height
    && r.x + r.width <= screenWidth && r.y + r.height <= screenHeight
  }

  function Min(a: int, b: int): int {
    if a <= b then a else b
  }

  function Max(a: int, b: int): int {
    if a <= b then b else a
  }

  function Abs(n: int): nat {
    if n < 0 then -n else n
  }

  // ---------------------------------------------------------------------------------------
  // take_screenshot

  /**
   The grab target of `take_screenshot`: no region means the full screen; a region becomes the
   box from its corner to its corner plus its size. Any 4-tuple is truthy in Python, so even a
   region of zero size is turned into a box.
   */
  function CaptureTarget(region: Option<Region>): (t: Target)
    ensures region.None? <==> t == FullScreen
    ensures region.Some? ==>
              && t.left == region.value.x && t.top == region.value.y
              && t.right - t.left == region.value.width
              && t.bottom - t.top == region.value.height
  {
    match region
    case None => FullScreen
    case Some(Region(x, y, width, height)) => Box(x, y, x + width, y + height)
  }

  // ---------------------------------------------------------------------------------------
  // RegionSelector: on_button_release

  /** A drag must be wider and taller than this many pixels to be taken as a region. */
  const MinDragSize: int := 10

  /** The region spanned by a drag from (`sx`, `sy`) to (`ex`, `ey`). */
  function Normalize(sx: int, sy: int, ex: int, ey: int): (r: Region)
    ensures r.x == Min(sx, ex) && r.x + r.width == Max(sx, ex)
    ensures r.y == Min(sy, ey) && r.y + r.height == Max(sy, ey)
    ensures r.width >= 0 && r.height >= 0
  {
    Region(Min(sx, ex), Min(sy, ey), Abs(ex - sx), Abs(ey - sy))
  }

  /**
   `r` is the rectangle whose opposite corners are the two points, named without saying which
   point is which: its left and right edges are the two x values, its top and bottom edges the
   two y values.
   */
  ghost predicate SpannedBy(r: Region, sx: int, sy: int, ex: int, ey: int) {
    && r.width >= 0 && r.height >= 0
    && {r.x, r.x + r.width} == {sx, ex}
    && {r.y, r.y + r.height} == {sy, ey}
  }

  /** The drag rectangle is the one spanned by the press and release points, and only it. */
  lemma NormalizeIsSpanned(sx: int, sy: int, ex: int, ey: int, r: Region)
    ensures SpannedBy(Normalize(sx, sy, ex, ey), sx, sy, ex, ey)
    ensures SpannedBy(r, sx, sy, ex, ey) ==> r == Normalize(sx, sy, ex, ey)
  {
  }

  /** What the selector holds after the button is released, and whether the window closes. */
  datatype Release = Release(region: Option<Region>, done: bool)

  /**
   `on_button_release`: a drag larger than `MinDragSize` in both directions becomes the region
   and ends the selection; a smaller one is discarded and the earlier region is kept.
   */
  function OnRelease(current: Option<Region>, sx: int, sy: int, ex: int, ey: int): (r: Release)
    ensures r.done <==> Abs(ex - sx) > MinDragSize && Abs(ey - sy) > MinDragSize
    ensures r.done ==> r.region == Some(Normalize(sx, sy, ex, ey))
    ensures !r.done ==> r.region == current
  {
    var n := Normalize(sx, sy, ex, ey);
    if n.width > MinDragSize && n.height > MinDragSize then Release(Some(n), true)
    else Release(current, false)
  }

  /** Dragging either way along either axis selects the same region. */
  lemma DragDirectionIrrelevant(current: Option<Region>, sx: int, sy: int, ex: int, ey: int)
    ensures OnRelease(current, sx, sy, ex, ey) == OnRelease(current, ex, ey, sx, sy)
    ensures OnRelease(current, sx, sy, ex, ey) == OnRelease(current, ex, sy, sx, ey)
  {
  }

  /** An accepted drag gives a grab box of at least `MinDragSize + 1` pixels each way. */
  lemma AcceptedDragHasLargeBox(current: Option<Region>, sx: int, sy: int, ex: int, ey: int)
    requires OnRelease(current, sx, sy, ex, ey).done
    ensures var t := CaptureTarget(OnRelease(current, sx, sy, ex, ey).region);
            t.right - t.left > MinDragSize && t.bottom - t.top > MinDragSize
  {
  }

  // ---------------------------------------------------------------------------------------
  // Typed-in coordinates

  /** The four entry fields after `int(...)`, or a `ValueError` from any of them. */
  datatype Fields = Fields(x: int, y: int, width: int, height: int) | Unparsable

  /**
   `select_region_input` (console): the typed region when width and height are positive,
   `None` otherwise or when a field is not a number.
   */
  function ManualRegion(f: Fields): (r: Option<Region>)
    ensures r.Some? <==> f.Fields? && f.width > 0 && f.height > 0
    ensures r.Some? ==> r.value == Region(f.x, f.y, f.width, f.height)
  {
    match f
    case Unparsable => None
    case Fields(x, y, width, height) =>
      if width > 0 && height > 0 then Some(Region(x, y, width, height)) else None
  }

  /** The desktop client's dialog after "confirm": the region it now holds and whether it closed. */
  datatype Confirm = Confirm(region: Option<Region>, closed: bool)

  /**
   `manual_input_region.confirm` (desktop): the same check as the console; an accepted region
   replaces `capture_region` and closes the dialog, a rejected one leaves both as they were.
   */
  function ConfirmManual(current: Option<Region>, f: Fields): (r: Confirm)
    ensures r.closed <==> f.Fields? && f.width > 0 && f.height > 0
    ensures r.closed ==> r.region == Some(Region(f.x, f.y, f.width, f.height))
    ensures !r.closed ==> r.region == current
  {
    match ManualRegion(f)
    case Some(region) => Confirm(Some(region), true)
    case None => Confirm(current, false)
  }

  /** A typed-in region always gives a grab box with right > left and bottom > top. */
  lemma ManualRegionHasProperBox(f: Fields)
    requires ManualRegion(f).Some?
    ensures var t := CaptureTarget(ManualRegion(f));
            t.Box? && t.right > t.left && t.bottom > t.top
  {
  }

  // ---------------------------------------------------------------------------------------
  // Console presets (get_capture_region, mode "4")

  /** The fixed preset table of the console client, for a 1920x1080 screen. */
  const ConsolePresets: map<string, Region> := map[
    "1" := Region(0, 0, 960, 1080),
    "2" := Region(960, 0, 960, 1080),
    "3" := Region(0, 0, 1920, 540),
    "4" := Region(0, 540, 1920, 540),
    "5" := Region(480, 270, 960, 540)
  ]

  /** The preset chosen by key, or `None` (full screen) for any other answer. */
  function ConsolePreset(choice: string): (r: Option<Region>)
    ensures r.Some? <==> choice in {"1", "2", "3", "4", "5"}
    ensures r.Some? ==> Within(r.value, 1920, 1080) && r.value.width > 0 && r.value.height > 0
  {
    if choice in ConsolePresets then Some(ConsolePresets[choice]) else None
  }

  // ---------------------------------------------------------------------------------------
  // Desktop presets (show_presets)

  datatype PresetName =
    | LeftHalf | RightHalf | TopHalf | BottomHalf | CenterHalf | CenterTwoThirds
    | TopLeftQuarter | TopRightQuarter | BottomLeftQuarter | BottomRightQuarter

  /** The preset regions the desktop client derives from the screen size by floor division. */
  function GuiPreset(name: PresetName, width: nat, height: nat): (r: Region)
    ensures Within(r, width, height)
  {
    match name
    case LeftHalf => Region(0, 0, width / 2, height)
    case RightHalf => Region(width / 2, 0, width / 2, height)
    case TopHalf => Region(0, 0, width, height / 2)
    case BottomHalf => Region(0, height / 2, width, height / 2)
    case CenterHalf => Region(width / 4, height / 4, width / 2, height / 2)
    case CenterTwoThirds => Region(width / 6, height / 6, width * 2 / 3, height * 2 / 3)
    case TopLeftQuarter => Region(0, 0, width / 2, height / 2)
    case TopRightQuarter => Region(width / 2, 0, width / 2, height / 2)
    case BottomLeftQuarter => Region(0, height / 2, width / 2, height / 2)
    case BottomRightQuarter => Region(width / 2, height / 2, width / 2, height / 2)
  }

  /** The dialog's list, in the order it shows the presets. */
  function GuiPresets(width: nat, height: nat): (ps: seq<(PresetName, Region)>)
    ensures |ps| == 10
    ensures forall k | 0 <= k < |ps| :: ps[k].1 == GuiPreset(ps[k].0, width, height)
    ensures forall k | 0 <= k < |ps| :: Within(ps[k].1, width, height)
    ensures forall i, j | 0 <= i < j < |ps| :: ps[i].0 != ps[j].0
  {
    var names := [LeftHalf, RightHalf, TopHalf, BottomHalf, CenterHalf, CenterTwoThirds,
                  TopLeftQuarter, TopRightQuarter, BottomLeftQuarter, BottomRightQuarter];
    seq(10, k requires 0 <= k < 10 => (names[k], GuiPreset(names[k], width, height)))
  }

  /** The half-screen and quarter-screen presets meet edge to edge. */
  lemma GuiHalvesAdjacent(width: nat, height: nat)
    ensures var l, r := GuiPreset(LeftHalf, width, height), GuiPreset(RightHalf, width, height);
            l.x + l.width == r.x && l.y == r.y && l.height == r.height
    ensures var t, b := GuiPreset(TopHalf, width, height), GuiPreset(BottomHalf, width, height);
            t.y + t.height == b.y && t.x == b.x && t.width == b.width
    ensures var tl, tr := GuiPreset(TopLeftQuarter, width, height), GuiPreset(TopRightQuarter, width, height);
            var bl := GuiPreset(BottomLeftQuarter, width, height);
            tl.x + tl.width == tr.x && tl.y + tl.height == bl.y
  {
  }

  /**
   The two vertical halves cover the full width exactly when it is even; on an odd width the
   rightmost column belongs to neither. Likewise for the horizontal halves and the height.
   */
  lemma GuiHalvesCoverIffEven(width: nat, height: nat)
    ensures var r := GuiPreset(RightHalf, width, height);
            r.x + r.width == width <==> width % 2 == 0
    ensures var b := GuiPreset(BottomHalf, width, height);
            b.y + b.height == height <==> height % 2 == 0
  {
  }

  /** Every desktop preset has a non-empty area exactly when the screen is at least 2x2. */
  lemma GuiPresetsNonEmptyIff(width: nat, height: nat)
    ensures (forall name: PresetName :: GuiPreset(name, width, height).width > 0
                                        && GuiPreset(name, width, height).height > 0)
            <==> width >= 2 && height >= 2
  {
    if width < 2 {
      assert GuiPreset(LeftHalf, width, height).width == 0;
    } else if height < 2 {
      assert GuiPreset(TopHalf, width, height).height == 0;
    }
  }

  /** The console's five presets are the desktop's first five, evaluated on a 1920x1080 screen. */
  lemma ConsolePresetsMatchGui()
    ensures ConsolePreset("1") == Some(GuiPreset(LeftHalf, 1920, 1080))
    ensures ConsolePreset("2") == Some(GuiPreset(RightHalf, 1920, 1080))
    ensures ConsolePreset("3") == Some(GuiPreset(TopHalf, 1920, 1080))
    ensures ConsolePreset("4") == Some(GuiPreset(BottomHalf, 1920, 1080))
    ensures ConsolePreset("5") == Some(GuiPreset(CenterHalf, 1920, 1080))
  {
  }
}

=== FILE: relay_properties.dfy ===
/**
 Properties of the relay store that relate several operations: the claim is single-use, the
 last upload wins, a query reports exactly the lifecycle state, the reaper is idempotent, and
 every sequence of operations keeps the store invariant.
 */
module RelayProperties {
  import opened Basics
  import opened RelayStore

  /** A second `check_requests` straight after the first hands out nothing at all. */
  lemma SecondClaimIsEmpty(s: Store)
    ensures Claim(Claim(s).store).reply == CheckReply(false, [])
  {
    var t := Claim(s).store;
    NothingPendingNothingClaimed(t.order, t.requests);
  }

  /**
   A claimed request is never handed out again: whatever uploads, queries, reaper passes, other
   claims and creates of other ids lead from the store `claimed` after a claim to `later`, a
   `check_requests` on `later` does not return it.
   */
  lemma ClaimIsSingleUse(s: Store, claimed: Store, ops: seq<Op>, later: Store, id: Id)
    requires claimed == Claim(s).store
    requires forall k | 0 <= k < |ops| :: !(ops[k].CreateOp? && ops[k].id == id)
    requires Replay(claimed, ops) == Some(later)
    ensures forall c | c in Claim(later).reply.requests :: c.requestId != id
  {
    NotPendingStaysNotPending(claimed, id, ops);
  }

  /** Only a create of `id` could make `id` Pending again. */
  lemma {:induction false} NotPendingStaysNotPending(s: Store, id: Id, ops: seq<Op>)
    requires id in s.requests ==> s.requests[id].status != Pending
    requires forall k | 0 <= k < |ops| :: !(ops[k].CreateOp? && ops[k].id == id)
    ensures Replay(s, ops).Some? ==>
              var t := Replay(s, ops).value;
              id in t.requests ==> t.requests[id].status != Pending
    decreases |ops|
  {
    if ops != [] {
      assert !(ops[0].CreateOp? && ops[0].id == id);
      if Apply(s, ops[0]).Some? {
        var t := Apply(s, ops[0]).value;
        assert id in t.requests ==> t.requests[id].status != Pending;
        NotPendingStaysNotPending(t, id, ops[1..]);
      }
    }
  }

  lemma {:induction false} NothingPendingNothingClaimed(order: seq<Id>, requests: map<Id, Req>)
    requires forall id | id in order && id in requests :: requests[id].status != Pending
    ensures PendingIn(order, requests) == []
  {
    if order != [] {
      NothingPendingNothingClaimed(order[1..], requests);
    }
  }

  /**
   After a claim, a single new request is the only thing the next claim returns: it carries
   the new id, the requester, the creation time and the status "pending".
   */
  lemma ClaimAfterCreateReturnsOnlyNew(s: Store, id: Id, userId: string, now: int)
    requires Valid(s)
    requires id !in Claim(s).store.requests
    ensures var t := Create(Claim(s).store, id, userId, now).store;
            Claim(t).reply == CheckReply(true, [Claimed(id, userId, now, Pending)])
  {
    var claimed := Claim(s).store;
    var t := Create(claimed, id, userId, now).store;
    assert t.order == claimed.order + [id];
    PendingInAppend(claimed.order, [id], t.requests);
    NothingPendingNothingClaimed(claimed.order, t.requests);
  }

  /**
   The claim list follows insertion order: walking the ids `a` and then `b` yields the list for
   `a` followed by the list for `b`.
   */
  lemma {:induction false} PendingInAppend(a: seq<Id>, b: seq<Id>, requests: map<Id, Req>)
    ensures PendingIn(a + b, requests) == PendingIn(a, requests) + PendingIn(b, requests)
  {
    if a == [] {
      assert a + b == b;
    } else {
      assert (a + b)[1..] == a[1..] + b;
      PendingInAppend(a[1..], b, requests);
    }
  }

  /** An upload to a known id is read back byte for byte by the next query. */
  lemma UploadThenQuery(s: Store, id: Id, imageData: string, now: int)
    requires id in s.requests
    ensures Upload(s, id, imageData, now).reply == Ok(())
    ensures Query(Upload(s, id, imageData, now).store, id) == Ok(CompletedWith(imageData))
  {
  }

  /** For an id the relay does not know, both the upload and the query fail with 404. */
  lemma UnknownIdNotFound(s: Store, id: Id, imageData: string, now: int)
    requires id !in s.requests
    ensures Upload(s, id, imageData, now) == Outcome(s, NotFound)
    ensures Query(s, id) == NotFound
  {
  }

  /** Two uploads to the same id: the second image is the one served, and the status stays Completed. */
  lemma LastUploadWins(s: Store, id: Id, first: string, t1: int, second: string, t2: int)
    requires id in s.requests
    ensures var t := Upload(Upload(s, id, first, t1).store, id, second, t2).store;
            && t.requests[id].status == Completed
            && Query(t, id) == Ok(CompletedWith(second))
  {
  }

  /** A newly created request reads back as "pending". */
  lemma CreateThenQuery(s: Store, id: Id, userId: string, now: int)
    requires id !in s.requests
    ensures Query(Create(s, id, userId, now).store, id) == Ok(ReportPending)
  {
  }

  /**
   In a valid store the query reports the lifecycle status exactly: the "completed but no
   image" case that falls back to "pending" cannot arise.
   */
  lemma QueryReflectsStatus(s: Store, id: Id)
    requires Valid(s)
    requires id in s.requests
    ensures s.requests[id].status == Pending <==> Query(s, id) == Ok(ReportPending)
    ensures s.requests[id].status == Processing <==> Query(s, id) == Ok(ReportProcessing)
    ensures s.requests[id].status == Completed <==>
              id in s.shots && Query(s, id) == Ok(CompletedWith(s.shots[id].imageData))
  {
  }

  /** The reaper deletes an expired request from the relay's view whatever its status. */
  lemma ReapForgetsExpired(s: Store, id: Id, now: int)
    requires id in s.requests && Expired(s.requests[id], now)
    ensures Query(Reap(s, now), id) == NotFound
    ensures id !in Reap(s, now).shots
  {
  }

  /** A second pass at the same instant finds nothing more to delete. */
  lemma {:induction false} ReapIsIdempotent(s: Store, now: int)
    ensures Reap(Reap(s, now), now) == Reap(s, now)
  {
    var once := Reap(s, now);
    var twice := Reap(once, now);
    assert twice.requests == once.requests;
    assert twice.shots == once.shots;
    SurvivorsKeepsAllWhenNothingGone(once.order, set id | id in once.requests && Expired(once.requests[id], now));
  }

  /**
   The reaper keeps the survivors in insertion order: filtering `a` and then `b` gives the
   survivors of `a` followed by the survivors of `b`.
   */
  lemma {:induction false} SurvivorsAppend(a: seq<Id>, b: seq<Id>, gone: set<Id>)
    ensures Survivors(a + b, gone) == Survivors(a, gone) + Survivors(b, gone)
  {
    if a == [] {
      assert a + b == b;
    } else {
      assert (a + b)[1..] == a[1..] + b;
      SurvivorsAppend(a[1..], b, gone);
    }
  }

  lemma {:induction false} SurvivorsKeepsAllWhenNothingGone(order: seq<Id>, gone: set<Id>)
    requires forall id | id in order :: id !in gone
    ensures Survivors(order, gone) == order
  {
    if order != [] {
      SurvivorsKeepsAllWhenNothingGone(order[1..], gone);
      assert order == [order[0]] + order[1..];
    }
  }

  /**
   The end-to-end flow: a viewer creates a request, the agent claims it and sees "pending",
   the viewer sees "processing", the agent uploads, and the viewer receives the same image.
   */
  lemma HappyPath(s: Store, id: Id, userId: string, now: int, imageData: string, later: int)
    requires Valid(s)
    requires id !in s.requests
    ensures var s1 := Create(s, id, userId, now).store;
            var claim := Claim(s1);
            var s3 := Upload(claim.store, id, imageData, later);
            && Claimed(id, userId, now, Pending) in claim.reply.requests
            && Query(claim.store, id) == Ok(ReportProcessing)
            && s3.reply == Ok(())
            && Query(s3.store, id) == Ok(CompletedWith(imageData))
            && Valid(s3.store)
  {
    var s1 := Create(s, id, userId, now).store;
    var claim := Claim(s1);
    assert Valid(s1);
    var c :| c in claim.reply.requests && c.requestId == id;
    assert c == Claimed(id, userId, now, Pending);
  }

  // ---------------------------------------------------------------------------------------
  // Arbitrary sequences of operations

  /** The relay's five entry points, with the inputs each one takes from outside. */
  datatype Op =
    | CreateOp(id: Id, userId: string, now: int)
    | ClaimOp
    | UploadOp(id: Id, imageData: string, now: int)
    | QueryOp(id: Id)
    | ReapOp(now: int)

  /** The store after `op`, or `None` when a create reuses a live id (a `uuid4` never does). */
  function Apply(s: Store, op: Op): Option<Store> {
    match op
    case CreateOp(id, userId, now) => if id in s.requests then None else Some(Create(s, id, userId, now).store)
    case ClaimOp => Some(Claim(s).store)
    case UploadOp(id, imageData, now) => Some(Upload(s, id, imageData, now).store)
    case QueryOp(_) => Some(s)
    case ReapOp(now) => Some(Reap(s, now))
  }

  /** The store after running `ops` in order, or `None` if some create reused a live id. */
  function Replay(s: Store, ops: seq<Op>): Option<Store>
    decreases |ops|
  {
    if ops == [] then Some(s)
    else
      match Apply(s, ops[0])
      case None => None
      case Some(t) => Replay(t, ops[1..])
  }

  /** Every operation keeps the store invariant. */
  lemma ApplyPreservesValid(s: Store, op: Op)
    requires Valid(s)
    ensures Apply(s, op).Some? ==> Valid(Apply(s, op).value)
    ensures Apply(s, op).Some? ==> NeverRegresses(s, Apply(s, op).value)
  {
  }

  /**
   Any sequence of operations from a valid store, in particular from the empty one the relay
   starts with, ends in a valid store.
   */
  lemma {:induction false} ReplayPreservesValid(s: Store, ops: seq<Op>)
    requires Valid(s)
    ensures Replay(s, ops).Some? ==> Valid(Replay(s, ops).value)
    decreases |ops|
  {
    if ops != [] {
      ApplyPreservesValid(s, ops[0]);
      if Apply(s, ops[0]).Some? {
        ReplayPreservesValid(Apply(s, ops[0]).value, ops[1..]);
      }
    }
  }

  /** The relay starts from two empty dictionaries, which satisfy the invariant. */
  lemma EmptyIsValid()
    ensures Valid(Empty)
  {
  }
}

=== FILE: relay_store.dfy ===
/**
 The relay's request-lifecycle store (app/server.py).

 The relay keeps two process-wide dictionaries: `screenshot_requests`, keyed by request id and
 holding the requester, the creation time and the lifecycle status, and `screenshots`, keyed by
 the same id and holding the uploaded image. Three handlers (create, claim, upload) and one
 reaper pass change them; the query handler only reads them. Each changing operation here is a
 pure function from the store before to the store after, together with the reply the handler
 returns, and the query is a function of the store alone.

 A Python dictionary remembers insertion order, and `check_requests` returns its pending entries
 in that order, so the store keeps the insertion order of the request ids beside the map.
 */
module RelayStore {

  /** Request ids are the text of a `uuid4`; the relay never reuses one. */
  type Id = string

  /** A request older than this many seconds is deleted by the reaper, whatever its status. */
  const MaxAge: int := 3600

  datatype Status = Pending | Processing | Completed

  /** One entry of `screenshot_requests`. */
  datatype Req = Req(userId: string, timestamp: int, status: Status)

  /** One entry of `screenshots`: the base64 image text, kept opaque, and the upload time. */
  datatype Shot = Shot(imageData: string, timestamp: int)

  /** Both dictionaries; `order` lists the keys of `requests` in insertion order. */
  datatype Store = Store(order: seq<Id>, requests: map<Id, Req>, shots: map<Id, Shot>)

  /** One item of the `check_requests` reply: the request id merged with a copy of its entry. */
  datatype Claimed = Claimed(requestId: Id, userId: string, timestamp: int, status: Status)

  /** The `check_requests` reply body. */
  datatype CheckReply = CheckReply(hasRequests: bool, requests: seq<Claimed>)

  /** The `get_screenshot` reply body: "completed" with the image, "processing" or "pending". */
  datatype Answer = CompletedWith(imageData: string) | ReportProcessing | ReportPending

  /** A handler's reply, or the HTTP 404 "Request not found". */
  datatype Result<+T> = Ok(value: T) | NotFound

  /** The store after a handler ran, and the handler's reply. */
  datatype Outcome<+T> = Outcome(store: Store, reply: T)

  const Empty: Store := Store([], map[], map[])

  ghost predicate NoDuplicates(ids: seq<Id>) {
    forall i, j | 0 <= i < j < |ids| :: ids[i] != ids[j]
  }

  ghost predicate DistinctIds(cs: seq<Claimed>) {
    forall i, j | 0 <= i < j < |cs| :: cs[i].requestId != cs[j].requestId
  }

  /**
   The store invariant: `order` enumerates the request keys once each, and an image is stored
   exactly for the Completed requests, so
   `get_screenshot` can never see the "completed but no image yet" case.
   */
  ghost predicate Valid(s: Store) {
    && NoDuplicates(s.order)
    && (forall id :: id in s.order <==> id in s.requests)
    && (forall id | id in s.requests && s.requests[id].status == Completed :: id in s.shots)
    && (forall id | id in s.shots :: id in s.requests && s.requests[id].status == Completed)
  }

  /** Position of a status along the lifecycle Pending, Processing, Completed. */
  function Rank(st: Status): nat {
    match st
    case Pending => 0
    case Processing => 1
    case Completed => 2
  }

  /**
   No request that survives a step moves backwards in its lifecycle, and none changes its
   requester or creation time.
   */
  ghost predicate NeverRegresses(s: Store, t: Store) {
    forall id | id in s.requests && id in t.requests ::
      && t.requests[id].userId == s.requests[id].userId
      && t.requests[id].timestamp == s.requests[id].timestamp
      && Rank(s.requests[id].status) <= Rank(t.requests[id].status)
  }

  // ---------------------------------------------------------------------------------------
  // request_screenshot

  /**
   `request_screenshot`: store a new Pending request under the freshly generated `id`,
   stamped with the current time, and reply with that id.
   */
  function Create(s: Store, id: Id, userId: string, now: int): (r: Outcome<Id>)
    requires id !in s.requests
    ensures r.reply == id
    ensures id in r.store.requests && r.store.requests[id] == Req(userId, now, Pending)
    ensures r.store.requests.Keys == s.requests.Keys + {id}
    ensures forall k | k in s.requests :: r.store.requests[k] == s.requests[k]
    ensures r.store.shots == s.shots
    ensures NeverRegresses(s, r.store)
    ensures Valid(s) ==> Valid(r.store)
  {
    Outcome(Store(s.order + [id], s.requests[id := Req(userId, now, Pending)], s.shots), id)
  }

  // ---------------------------------------------------------------------------------------
  // check_requests

  /** The `{"request_id": id, **entry}` copy, taken before the entry is marked. */
  function Snapshot(id: Id, q: Req): Claimed {
    Claimed(id, q.userId, q.timestamp, q.status)
  }

  /** The pending entries met while walking `order`, as copies, in that order. */
  function PendingIn(order: seq<Id>, requests: map<Id, Req>): (r: seq<Claimed>)
    ensures forall c | c in r ::
              && c.requestId in order
              && c.requestId in requests
              && requests[c.requestId].status == Pending
              && c == Snapshot(c.requestId, requests[c.requestId])
    ensures forall id | id in order && id in requests && requests[id].status == Pending ::
              Snapshot(id, requests[id]) in r
    ensures NoDuplicates(order) ==> DistinctIds(r)
  {
    if order == [] then []
    else
      var id := order[0];
      var rest := PendingIn(order[1..], requests);
      assert forall c | c in rest :: c.requestId in order[1..];
      if id in requests && requests[id].status == Pending then
        assert NoDuplicates(order) ==> id !in order[1..];
        [Snapshot(id, requests[id])] + rest
      else
        rest
  }

  /** A claimed entry moves to Processing; every other entry is kept as it was. */
  function Mark(q: Req): Req {
    if q.status == Pending then q.(status := Processing) else q
  }

  /**
   `check_requests`: reply with every pending request (copies, still showing "pending") and
   mark each of them Processing, so that no later call hands them out again.
   */
  function Claim(s: Store): (r: Outcome<CheckReply>)
    ensures r.reply.hasRequests <==> r.reply.requests != []
    ensures forall c | c in r.reply.requests ::
              && c.status == Pending
              && c.requestId in s.requests
              && s.requests[c.requestId].status == Pending
              && c.userId == s.requests[c.requestId].userId
              && c.timestamp == s.requests[c.requestId].timestamp
    ensures Valid(s) ==> forall id | id in s.requests && s.requests[id].status == Pending ::
              exists c | c in r.reply.requests :: c.requestId == id
    ensures Valid(s) ==> DistinctIds(r.reply.requests)
    ensures r.store.order == s.order && r.store.shots == s.shots
    ensures r.store.requests.Keys == s.requests.Keys
    ensures forall c | c in r.reply.requests ::
              r.store.requests[c.requestId] == s.requests[c.requestId].(status := Processing)
    ensures forall id | id in s.requests && s.requests[id].status != Pending ::
              r.store.requests[id] == s.requests[id]
    ensures forall id | id in r.store.requests :: r.store.requests[id].status != Pending
    ensures NeverRegresses(s, r.store)
    ensures Valid(s) ==> Valid(r.store)
  {
    var claimed := PendingIn(s.order, s.requests);
    var marked := map id | id in s.requests :: Mark(s.requests[id]);
    var store := Store(s.order, marked, s.shots);
    if claimed != [] then
      Outcome(store, CheckReply(true, claimed))
    else
      Outcome(store, CheckReply(false, []))
  }

  // ---------------------------------------------------------------------------------------
  // upload_screenshot

  /**
   `upload_screenshot`: 404 for an unknown id, leaving both dictionaries alone; otherwise store
   the image (replacing any earlier one) and mark the request Completed, whatever its status.
   */
  function Upload(s: Store, id: Id, imageData: string, now: int): (r: Outcome<Result<()>>)
    ensures r.reply == NotFound <==> id !in s.requests
    ensures id !in s.requests ==> r.store == s
    ensures r.store.order == s.order && r.store.requests.Keys == s.requests.Keys
    ensures id in s.requests ==>
              && r.store.shots.Keys == s.shots.Keys + {id}
              && r.store.shots[id] == Shot(imageData, now)
              && r.store.requests[id] == s.requests[id].(status := Completed)
    ensures forall k | k in s.requests && k != id :: r.store.requests[k] == s.requests[k]
    ensures forall k | k in s.shots && k != id :: r.store.shots[k] == s.shots[k]
    ensures NeverRegresses(s, r.store)
    ensures Valid(s) ==> Valid(r.store)
  {
    if id !in s.requests then
      Outcome(s, NotFound)
    else
      var shots := s.shots[id := Shot(imageData, now)];
      var requests := s.requests[id := s.requests[id].(status := Completed)];
      Outcome(Store(s.order, requests, shots), Ok(()))
  }

  // ---------------------------------------------------------------------------------------
  // get_screenshot

  /**
   `get_screenshot`: 404 for an unknown id; the stored image when the request is Completed and
   an image is present; "processing" for a Processing request; "pending" in every other case,
   which includes a Completed request without an image.
   */
  function Query(s: Store, id: Id): (r: Result<Answer>)
    ensures r == NotFound <==> id !in s.requests
    ensures r.Ok? && r.value.CompletedWith? <==>
              id in s.requests && s.requests[id].status == Completed && id in s.shots
    ensures r.Ok? && r.value.CompletedWith? ==> r.value.imageData == s.shots[id].imageData
    ensures r == Ok(ReportProcessing) <==> id in s.requests && s.requests[id].status == Processing
  {
    if id !in s.requests then NotFound
    else
      var q := s.requests[id];
      if q.status == Completed && id in s.shots then Ok(CompletedWith(s.shots[id].imageData))
      else if q.status == Processing then Ok(ReportProcessing)
      else Ok(ReportPending)
  }

  // ---------------------------------------------------------------------------------------
  // cleanup_expired_requests, one pass

  /** The reaper's age test, with `now` read once per pass. */
  predicate Expired(q: Req, now: int) {
    now - q.timestamp > MaxAge
  }

  /** The ids of `order` that are not in `gone`, in their original order. */
  function Survivors(order: seq<Id>, gone: set<Id>): (r: seq<Id>)
    ensures forall id :: id in r <==> id in order && id !in gone
    ensures NoDuplicates(order) ==> NoDuplicates(r)
    ensures |r| <= |order|
  {
    if order == [] then []
    else
      var rest := Survivors(order[1..], gone);
      if order[0] in gone then rest
      else
        assert NoDuplicates(order) ==> order[0] !in rest;
        [order[0]] + rest
  }

  /**
   One pass of `cleanup_expired_requests`: every request older than `MaxAge` seconds at `now`
   is removed from both dictionaries, whatever its status; everything else is left untouched.
   */
  function Reap(s: Store, now: int): (r: Store)
    ensures forall id | id in s.requests :: id in r.requests <==> !Expired(s.requests[id], now)
    ensures r.requests.Keys <= s.requests.Keys
    ensures forall id | id in r.requests :: r.requests[id] == s.requests[id]
    ensures forall id | id in s.requests && Expired(s.requests[id], now) :: id !in r.shots
    ensures forall id | id in s.shots && !(id in s.requests && Expired(s.requests[id], now)) ::
              id in r.shots && r.shots[id] == s.shots[id]
    ensures r.shots.Keys <= s.shots.Keys
    ensures forall id | id in r.order :: id in s.order
    ensures NeverRegresses(s, r)
    ensures Valid(s) ==> Valid(r)
  {
    var gone := set id | id in s.requests && Expired(s.requests[id], now);
    Store(Survivors(s.order, gone), s.requests - gone, s.shots - gone)
  }
}
